=== FILE: README.md ===
# Wedding page interactivity, modelled in Dafny

This project models the pure logic inside `script.js` of a single-page wedding site.
The page's DOM, timers, clock and media element are replaced by explicit state
records and inputs, and every browser event becomes a pure transition function.
The model covers:

- **Hero slider** (`setupHeroSlider`, module `HeroSlider`). A ring of slides, with the
  hero video on slide 3. It keeps one 'active' flag per slide and per dot. The
  autoplay interval is modelled as the `slideInterval` variable plus the set of
  interval handles that still fire. There are transitions for `showSlide`,
  `nextSlide`/`prevSlide`, the 5-second tick, the video's `ended` event, mouse
  enter/leave and the guarded prev/next/dot clicks.
- **Gallery** (`initializeGallery`, module `Gallery`). Filter buttons over categorised
  items, and `visibleItems` as the ordered positions of the displayed items. The
  lightbox is modelled as an open flag, `currentImageIndex` and what the overlay
  shows. There are transitions for `showImage`, prev/next (arrows, swipes and arrow
  keys), close (button, backdrop, Escape) and item clicks.
- **Scroll reveal** (module `ScrollReveal`). The `visibleRows` set, updated by
  intersection-observer entries that carry the scroll position.
- **RSVP submit** (`initializeRSVPForm`, module `Rsvp`). The required-field check, the
  email pattern `^[^\s@]+@[^\s@]+\.[^\s@]+$` stated as a split of the text, and the
  message template with its defaults.
- **Countdown** (`updateCountdown`, module `Countdown`). The split of the remaining
  milliseconds into days/hours/minutes/seconds, and the two-digit padding.

Shared helpers:

- `Flags`: rows of on/off class flags and their count.
- `Decimal`: decimal text of naturals and reading it back.
- `Optional`: an option type.

The autoplay tick skips only slide 3 itself: it runs `nextSlide()` from slides 0, 1
and 2. With four slides and the video, the third tick after loading shows slide 3
and starts the video, and only then does `showSlide` stop autoplay
(`HeroSlider.ThreeTicksReachVideo`).

## Model

| member | source | states |
|---|---|---|
| Flags.Select | script.js:159-163 | Clearing every 'active' class and then setting one leaves exactly that element active, so the active count is one |
| Flags.CountOneIsOnlyOn | script.js:159-163 | Conversely, a row whose active count is one has exactly one active element |
| Decimal.NatToString | script.js:454-457 | `toString()` of a natural has at least one digit and no leading zero (zero is the single digit "0"). It has one digit exactly below 10 and at most two exactly below 100, and reads back as the same number |
| Decimal.LeadingZero | script.js:454-457 | A '0' put in front of a decimal text does not change its value |
| HeroSlider.StopAutoSlide | script.js:154-156 | After `clearInterval` no autoplay interval fires. Nothing else changes, including the `slideInterval` variable |
| HeroSlider.Arm | script.js:147-151 | `setInterval` adds one fresh handle to the firing intervals and stores it in `slideInterval`; one that was firing keeps firing. The timer bookkeeping (only the held handle fires) survives iff nothing was firing before. Only the timer fields change |
| HeroSlider.StartAutoSlide | script.js:145-152 | Clearing, then arming, leaves exactly one live interval. It is freshly issued, so it is not one that was live before. Only the timer fields change |
| HeroSlider.ArmWithoutClearLeaks | script.js:145-147 | The `clearInterval` is needed: arming over a firing interval leaves two firing, one of them no longer held in `slideInterval` |
| HeroSlider.ShowSlide | script.js:158-179 | `currentSlide` becomes the index. Exactly that slide and that dot are active. On slide 3 with a video, autoplay is stopped and the video restarts. Elsewhere, timers are untouched and the video is paused. Slide count and video presence are kept (all of this is `HeroSlider.Shows`) |
| HeroSlider.ShowsUnique | script.js:158-179 | The effect of `showSlide` determines the resulting state: two states that both show the same slide from the same start are equal |
| HeroSlider.NextIndex | script.js:181-183 | The next index stays in range and wraps from the last slide to 0 |
| HeroSlider.PrevIndex | script.js:185-187 | The previous index stays in range and wraps from 0 to the last slide |
| HeroSlider.NextPrevInverse | script.js:181-187 | `prevSlide` undoes `nextSlide`, and `nextSlide` undoes `prevSlide` |
| HeroSlider.NextSlide | script.js:181-183 | Exactly `showSlide` of the slide after the current one: the effect `HeroSlider.Shows` states, including stop-and-play on slide 3 and pause elsewhere |
| HeroSlider.PrevSlide | script.js:185-187 | Exactly `showSlide` of the slide before the current one: the effect `HeroSlider.Shows` states, including stop-and-play on slide 3 and pause elsewhere |
| HeroSlider.Tick | script.js:147-151 | An autoplay tick changes nothing on slide 3, or when no interval is live. Otherwise it has the effect of `showSlide` of the next slide: autoplay keeps its interval and the video is paused, unless the new slide is slide 3 with a video, where autoplay stops and the video plays from the start. Slide count and video presence are kept |
| HeroSlider.NextClick | script.js:214-220 | Refused (no change) on slide 3 while its video has not ended. Otherwise it advances one slide, leaves exactly one interval armed and gives the video the command `showSlide` gives (play on slide 3, pause elsewhere). Slide count and video presence are kept |
| HeroSlider.PrevClick | script.js:222-228 | Refused under the same guard. Otherwise it goes back one slide, leaves exactly one interval armed and gives the video the command `showSlide` gives. Slide count and video presence are kept |
| HeroSlider.DotClick | script.js:230-236 | Refused under the same guard unless the dot is slide 3's. Otherwise it shows that slide, leaves exactly one interval armed and gives the video the command `showSlide` gives (dot 3 with a video plays it). Slide count and video presence are kept |
| HeroSlider.VideoEnded | script.js:189-194 | The video's end advances one slide, pauses the video when the new slide is not slide 3, and re-arms a single autoplay interval. Without a video there is no listener, so nothing changes |
| HeroSlider.MouseEnter | script.js:238-241 | Hovering pauses autoplay: no interval fires, and nothing else changes |
| HeroSlider.MouseLeave | script.js:238-241 | Leaving resumes autoplay with exactly one interval, and only the timer fields change |
| HeroSlider.Init | script.js:244-245 | After loading, the slider has the given slide count and video presence, slide 0 is the only active slide, the video (if any) is paused and exactly one interval is armed |
| HeroSlider.Blocked | script.js:214-236 | The guard of the three manual controls: slide 3 is showing, the video exists and it has not ended |
| HeroSlider.MediaAfter | script.js:164-178 | The video command `showSlide` leaves: play from the start on slide 3, pause elsewhere, nothing without a video |
| HeroSlider.AtMostOneInterval | script.js:145-147 | In every state no more than one autoplay interval fires. Every transition keeps this only through `StartAutoSlide`'s clear, since `Arm` adds to the firing set |
| HeroSlider.RestartIsIdempotent | script.js:145-152 | Starting autoplay twice leaves one interval, and the first one no longer fires (arming twice without the clear would leave two, `HeroSlider.ArmWithoutClearLeaks`) |
| HeroSlider.AutoplayHaltsOnVideo | script.js:147-168 | A tick that reaches the video slide (with a video) stops autoplay. Further ticks change nothing |
| HeroSlider.ThreeTicksReachVideo | script.js:141-168 | With four slides and a video, three ticks after loading show slide 3 and start the video. The state then holds under ticks |
| HeroSlider.EndedResumesAutoplay | script.js:189-194 | With four slides, the end of the video returns to slide 0 with one interval armed, and the next tick shows slide 1 |
| Gallery.ShownPositions | script.js:707-711 | `visibleItems` has as many entries as there are displayed items, and each names an item of the page |
| Gallery.ShownPositionsListsShown | script.js:707-711 | `visibleItems` holds exactly the displayed items, each once, in page order |
| Gallery.ListsShownUnique | script.js:707-711 | Only one list has those properties. So a gallery state satisfying them agrees with what `updateVisibleItems` recomputes |
| Gallery.Init | script.js:736-737 | On load the gallery holds the page's items, filters and buttons; every item is displayed, `visibleItems` lists all of them, the lightbox is closed, scrolling is unlocked and the chrome shown |
| Gallery.Keeps | script.js:724 | A filter keeps an item when it is "all" or equals the item's category |
| Gallery.FilterClick | script.js:714-733 | Exactly the clicked filter button is active. Item k is displayed iff the filter is "all" or equals k's category. `visibleItems` lists exactly the displayed items in order, so its length is their count. Nothing else changes: not the lightbox, the scroll lock or the page chrome |
| Gallery.IndexOf | script.js:821 | `indexOf` gives the first position holding the item, or -1 exactly when the item is absent |
| Gallery.Counter | script.js:805 | The counter text is the one-based position, " / ", and the list length, each in decimal |
| Gallery.CounterInjective | script.js:805 | The counter text "{i+1} / {n}" determines both the position and the total |
| Gallery.ShowImage | script.js:787-815 | An index outside `visibleItems` changes nothing. Otherwise the state gets that index; the overlay shows that item's image, alt and caption (alt text when there is no figcaption) and the counter "{i+1} / {n}"; the lightbox opens, scrolling locks and the navbar and back-to-top are hidden. Nothing else changes |
| Gallery.Prev | script.js:827-833 | Previous goes from the first item to the last and otherwise back one, and the result is exactly `showImage` of that index: new image, caption and counter, everything else kept. With nothing displayed it does nothing. The lightbox invariant is kept. Swipe right (913-915) and ArrowLeft (937-940) run the same code |
| Gallery.Next | script.js:835-841 | Next goes from the last item to the first and otherwise forward one, and the result is exactly `showImage` of that index: new image, caption and counter, everything else kept. With nothing displayed it does nothing. The lightbox invariant is kept. Swipe left (917-919) and ArrowRight (941-944) run the same code |
| Gallery.PrevNextInverse | script.js:826-841 | Inside a non-empty `visibleItems`, previous undoes next and next undoes previous |
| Gallery.WrapAround | script.js:826-841 | Next from the last displayed item gives index 0. Previous from index 0 gives the last index |
| Gallery.ItemClick | script.js:818-824 | Clicking a displayed item opens the lightbox on exactly that item, and the result is exactly `showImage` of its place in `visibleItems` (its image, caption and counter; everything else kept). Clicking a hidden one changes nothing |
| Gallery.Close | script.js:843-869 | The close button, or a click on the backdrop itself, closes the lightbox, unlocks scrolling and shows the navbar and back-to-top again |
| Gallery.KeyDown | script.js:930-946 | Keys are ignored while the lightbox is closed. Escape closes it and unlocks scrolling but leaves the page chrome as it was: it equals `Close` except for the chrome flag. ArrowLeft and ArrowRight are previous and next. Other keys do nothing |
| Gallery.EscapeLeavesChromeHidden | script.js:934-936 | As written, an Escape close leaves the navbar and back-to-top hidden, so it differs from the button close in exactly that flag |
| Gallery.KeyDownRestoring | script.js:934-936 | The corrected key handler: Escape closes exactly like the close button, and every other key behaves as before |
| Gallery.EveryCloseRestoresChrome | script.js:843-869 | With the correction, every close path gives the same page: overlay closed, scrolling unlocked, chrome shown |
| Gallery.CeremonyScenario | script.js:714-824 | Ten items, four of them "ceremony". The "ceremony" filter leaves four in `visibleItems`, and clicking the second ceremony item shows "2 / 4" |
| ScrollReveal.Init | script.js:703-704 | On load only row 0 is revealed, and the remembered scroll position is the one at load |
| ScrollReveal.Observe | script.js:748-771 | Row 0 stays. An entering row above 0 is added. A row above 0 that leaves while the page is not scrolling down is removed; a leaving entry while scrolling down changes no row. A row is never added by a leaving entry. No other row changes. The remembered scroll position changes only on leaving entries |
| ScrollReveal.ObserveAll | script.js:748 | A batch of entries is handled one after the other, in order (`entries.forEach`) |
| ScrollReveal.ObserveLoop | script.js:747-773 | A batch handled in order: row 0 stays, rows that no entry names keep their state, the scroll position comes from the last leaving entry, and the result equals the one-entry fold |
| ScrollReveal.RowZeroAlways | script.js:704 | Row 0 is in `visibleRows` after any sequence of entries |
| ScrollReveal.DownwardNeverHides | script.js:758-770 | While every leaving entry finds the page further down, no revealed row is hidden |
| ScrollReveal.SameBatchHidesSecondLeaving | script.js:758-768 | Two rows leaving in one callback while scrolling down share one `scrollY`: the first is kept, the second is hidden, since the first already recorded the new position |
| ScrollReveal.DownwardRevealsEntered | script.js:751-757 | While scrolling down, every row that entered during the batch is revealed at its end |
| Rsvp.ValidEmailIsPattern | script.js:608-609 | The email check accepts a text iff it splits as plain-run '@' plain-run '.' plain-run. A plain run is a non-empty text with no white space and no '@' |
| Rsvp.ValidEmail | script.js:608-609 | The email test as a scan: no white space, one '@' not first, and a '.' after it that is neither right after the '@' nor last |
| Rsvp.MessageLines | script.js:592-599 | The eight lines of the message template, with "Not provided" for an empty phone and "None" for an empty category |
| Rsvp.Message | script.js:592-599 | The message is the template's lines joined by line feeds |
| Rsvp.SplitJoin | script.js:592-599 | Cutting the multi-line message at its line feeds gives back its lines, when no line holds a line feed |
| Rsvp.MessageReadsBack | script.js:592-599 | The message has eight lines. Name, email, phone and category each sit after their label. An empty phone shows "Not provided" and an empty category shows "None" |
| Rsvp.DefaultsAreIndistinguishable | script.js:595-598 | An empty phone gives the same message as the phone "Not provided". An empty category gives the same message as "None" |
| Rsvp.Submit | script.js:601-612 | "Please fill in all required fields." iff name, email, guests or attendance is empty (a value of spaces counts as filled). Otherwise "Please enter a valid email address." iff the email does not match the pattern. Otherwise accepted, with the composed message |
| Rsvp.EmptyEmailIsMissing | script.js:602-605 | An empty email is reported as a missing field, not as a malformed address |
| Rsvp.NoTopLevelDomainRefused | script.js:608-611 | "a@b", with the other required fields filled, is refused as an invalid address |
| Rsvp.ShortAddressAccepted | script.js:608-612 | "a@b.c", with the other required fields filled, is accepted |
| Countdown.Split | script.js:448-452 | For a positive time left, hours < 24, minutes < 60 and seconds < 60. The parts add up to the time left to within less than a second |
| Countdown.SplitUnique | script.js:449-452 | No other in-range days/hours/minutes/seconds cover the time left to the second |
| Countdown.Pad2KeepsValue | script.js:454-457 | `padStart(2, '0')` keeps a decimal text's value |
| Countdown.FieldReadsBack | script.js:454-457 | A field is at least two digits and reads back as its number |
| Countdown.Pad2 | script.js:454-457 | `padStart(2, '0')`: a text shorter than two is filled with '0' in front up to two; longer texts are kept |
| Countdown.FieldWidth | script.js:454-457 | `padStart(2, '0')` of `toString()` is exactly two digits below 100; at 100 and above it is the unpadded text, with no leading zero |
| Countdown.Render | script.js:448-464 | Each field is at least two digits. For a positive time left, the fields read back as an in-range split covering it; hours, minutes and seconds are exactly two digits and days are two digits or have no leading zero. Otherwise all four are "00", which is also what a zero would be padded to |

## Left out

- DOM projection: the model keeps class flags and fields, not elements. Left out are `querySelector`, element lookups, styles, the fade-in animation string of filtered items, and the 'visible'/'hidden' classes on gallery rows. The rows are modelled by the `visibleRows` set.
- Page structure the script assumes without checking: the model assumes at least one slide (`HeroSlider.WellFormed` needs `count > 0`) and one dot per slide. On a page with no slides, `slides[0]` throws at script.js:162 inside the DOMContentLoaded handler at script.js:291, and `initializeRSVPForm` (script.js:297) then never runs. With fewer dots than slides, `dots[index]` throws at script.js:163. These aborted runs are not modelled.
- Gallery.ShowImage: assumes every gallery item holds an `<img>`. For an item without one, `img.src` throws at script.js:795; the model has no such item.
- Missing optional elements: the model assumes the page has all of them (slider buttons, slider container, lightbox controls). The one exception is the hero video, whose presence is the `hasVideo` field.
- Nav menu toggle, smooth scrolling, scroll spy, resize, navbar transparency, back-to-top visibility, nav-item fade-in, hero text animation, the generic fade-in observer and the menu swipe: one-shot class toggles driven by browser geometry.
- Media element behaviour: the `play()` promise and its swallowed rejection, `currentTime`, `volume`, `muted`, the play/pause and mute buttons, and their icon sync. `videoEnded` is an input.
- HeroSlider.ShowSlide: rewinding, unmuting and the volume of the video, plus the icon updates, are recorded only as the command "play from start". Real-time effects are not modelled.
- Timers and the clock: the model does not cover real timing for `setInterval`/`setTimeout`, the 5-second period, the 1-second countdown refresh or `requestAnimationFrame` throttling. A tick is an event that fires while an interval is live. `now` and `timeLeft` are integer inputs. The RSVP deadline check against the current date is left out.
- ScrollReveal.Observe: each entry carries its own `scrollY`, while the page reads one value per callback. The model therefore also admits batches whose entries see different positions. The one-value case is `ScrollReveal.SameBatchHidesSecondLeaving`. The hypothesis of `ScrollReveal.DownwardNeverHides` does not hold for a batch with two leaving entries.
- Touch handling: coordinates and the swipe thresholds (50 px, with horizontal movement larger than vertical) are floating-point pixel values. A recognised swipe is `Gallery.Prev` or `Gallery.Next`.
- Petal animation: it uses `Math.random` and floating point.
- RSVP delivery: the model leaves out `encodeURIComponent`, the mailto/WhatsApp/SMS URLs, `window.open`, the modal, form reset, `showRSVPMessage` insertion and its 5-second removal.
- Absent form fields: a field absent from the form (`FormData.get` returning `null`) is modelled as empty. This is exact: an absent phone or category gets its default (script.js:595, 598), and an absent required field is refused at script.js:602 before the message is used.
- Gallery.FilterClick: a missing `data-filter` or `data-category` attribute (`null`) is modelled as an ordinary string.
- Gallery.FilterClick: does not promise the lightbox invariant (open implies a valid index) when a filter is clicked while the lightbox is open. On the page the overlay covers the filter buttons. `currentImageIndex` is kept as it was, as in the source.
- Gallery.Close: the backdrop handler closes only when the click lands on the overlay itself. The model has one close transition for the button and the backdrop, and the target test is left to the caller.
- `Rsvp.IsSpace` holds ECMAScript's white-space and line-terminator characters as a fixed table. It is not derived from the Unicode database.
- Debug logging (`console.log`).

## Findings

| source | as written | input that shows it | evidently intended | confidence | as-written member | corrected member |
|---|---|---|---|---|---|---|
| script.js:934-936 | Escape closes the lightbox and unlocks scrolling. It does not restore the navbar and back-to-top that `showImage` hid. | Open any image, then press Escape: the navbar and back-to-top stay `display: none` | Escape closes like the close button and the backdrop, which both restore them (script.js:849-853, 863-867) | medium, not executed | Gallery.EscapeLeavesChromeHidden | Gallery.KeyDownRestoring |

=== FILE: countdown.dfy ===
/** The countdown of `initializeCountdown`: the milliseconds left until the wedding,
    split into days, hours, minutes and seconds, each written with at least two
    digits; all four show "00" once the moment has passed. The clock is an input:
    `timeLeft` is the target timestamp minus the current one, both whole
    milliseconds. */
module Countdown {
  import Decimal

  const MsPerSecond: nat := 1000
  const MsPerMinute: nat := 60_000       // 1000 * 60
  const MsPerHour: nat := 3_600_000      // 1000 * 60 * 60
  const MsPerDay: nat := 86_400_000      // 1000 * 60 * 60 * 24

  datatype Parts = Parts(days: nat, hours: nat, minutes: nat, seconds: nat)

  /** The four texts the page writes. */
  datatype Display = Display(days: string, hours: string, minutes: string, seconds: string)

  /** Milliseconds the parts stand for. */
  function Total(p: Parts): nat
  {
    p.days * MsPerDay + p.hours * MsPerHour + p.minutes * MsPerMinute + p.seconds * MsPerSecond
  }

  /** The parts are a mixed-radix reading: hours, minutes and seconds within their range. */
  predicate InRange(p: Parts)
  {
    p.hours < 24 && p.minutes < 60 && p.seconds < 60
  }

  /** Days, hours, minutes and whole seconds of a positive remaining time. For a
      positive operand JavaScript's `Math.floor(a / b)` and `a % b` agree with
      Dafny's `/` and `%`. */
  function Split(timeLeft: int): (p: Parts)
    requires timeLeft > 0
    ensures InRange(p)
    ensures Total(p) <= timeLeft < Total(p) + MsPerSecond
  {
    var p := Parts(
      timeLeft / MsPerDay,
      (timeLeft % MsPerDay) / MsPerHour,
      (timeLeft % MsPerHour) / MsPerMinute,
      (timeLeft % MsPerMinute) / MsPerSecond);
    SplitSound(timeLeft, p);
    p
  }

  lemma SplitSound(t: int, p: Parts)
    requires t > 0
    requires p.days == t / MsPerDay
    requires p.hours == (t % MsPerDay) / MsPerHour
    requires p.minutes == (t % MsPerHour) / MsPerMinute
    requires p.seconds == (t % MsPerMinute) / MsPerSecond
    ensures InRange(p)
    ensures Total(p) <= t < Total(p) + MsPerSecond
  {
    var r1 := t % MsPerDay;
    var r2 := t % MsPerHour;
    var r3 := t % MsPerMinute;
    DivBound(r1, MsPerHour, 24);
    DivBound(r2, MsPerMinute, 60);
    DivBound(r3, MsPerSecond, 60);
    ModOfMod(t, MsPerHour, 24);
    ModOfMod(t, MsPerMinute, 60);
    assert t == p.days * MsPerDay + r1;
    assert r1 == p.hours * MsPerHour + r2;
    assert r2 == p.minutes * MsPerMinute + r3;
    assert r3 == p.seconds * MsPerSecond + r3 % MsPerSecond;
  }

  /** The split is the only in-range one that covers the remaining time to the second. */
  lemma SplitUnique(timeLeft: int, q: Parts)
    requires timeLeft > 0
    requires InRange(q)
    requires Total(q) <= timeLeft < Total(q) + MsPerSecond
    ensures q == Split(timeLeft)
  {
    var t := timeLeft;
    var rem := t - Total(q);
    var r3 := q.seconds * MsPerSecond + rem;
    var r2 := q.minutes * MsPerMinute + r3;
    var r1 := q.hours * MsPerHour + r2;
    assert t == q.days * MsPerDay + r1;
    DivUnique(t, MsPerDay, q.days, r1);
    ModOfMod(t, MsPerHour, 24);
    DivUnique(r1, MsPerHour, q.hours, r2);
    ModOfMod(t, MsPerMinute, 60);
    DivUnique(r2, MsPerMinute, q.minutes, r3);
    DivUnique(r3, MsPerSecond, q.seconds, rem);
  }

  lemma MulAtLeast(x: int, b: int)
    requires x >= 1 && b > 0
    ensures x * b >= b
  {
    assert x * b == b + (x - 1) * b;
  }

  lemma MulMonotone(x: int, y: int, b: int)
    requires x <= y && b > 0
    ensures x * b <= y * b
  {
    assert y * b - x * b == (y - x) * b;
  }

  /** Quotient and remainder are the only ones. */
  lemma DivUnique(a: int, b: int, q: int, r: int)
    requires b > 0 && a == q * b + r && 0 <= r < b
    ensures a / b == q && a % b == r
  {
    var q0, r0 := a / b, a % b;
    assert a == q0 * b + r0;
    assert (q - q0) * b == r0 - r;
    if q > q0 {
      MulAtLeast(q - q0, b);
    } else if q < q0 {
      MulAtLeast(q0 - q, b);
    }
  }

  lemma DivBound(a: int, b: int, k: int)
    requires b > 0 && 0 <= a < b * k
    ensures a / b < k
  {
    assert a >= (a / b) * b;
    if a / b >= k {
      MulMonotone(k, a / b, b);
    }
  }

  lemma ModOfMod(a: int, b: int, k: int)
    requires a >= 0 && b > 0 && k > 0
    ensures (a % (b * k)) % b == a % b
  {
    var q := a / (b * k);
    var r := a % (b * k);
    assert a == q * (b * k) + r;
    assert a == (q * k + r / b) * b + r % b;
    DivUnique(a, b, q * k + r / b, r % b);
  }

  /** `String.prototype.padStart(2, '0')`. */
  function Pad2(s: string): (r: string)
    ensures |r| == if |s| >= 2 then |s| else 2
    ensures r[|r| - |s|..] == s
    ensures forall k :: 0 <= k < |r| - |s| ==> r[k] == '0'
  {
    if |s| >= 2 then s else seq(2 - |s|, _ => '0') + s
  }

  /** Padding a decimal text keeps its value. */
  lemma Pad2KeepsValue(s: string)
    requires Decimal.AllDigits(s) && |s| >= 1
    ensures Decimal.AllDigits(Pad2(s))
    ensures Decimal.ParseNat(Pad2(s)) == Decimal.ParseNat(s)
  {
    if |s| < 2 {
      assert Pad2(s) == ['0'] + s;
      Decimal.LeadingZero(s);
    }
  }

  /** Text of one field. */
  function Field(n: nat): string
  {
    Pad2(Decimal.NatToString(n))
  }

  /** A field has at least two digits and reads back as the number it shows. */
  lemma FieldReadsBack(n: nat)
    ensures |Field(n)| >= 2 && Decimal.AllDigits(Field(n))
    ensures Decimal.ParseNat(Field(n)) == n
  {
    Pad2KeepsValue(Decimal.NatToString(n));
  }

  /** A field is exactly two digits below a hundred, and otherwise the unpadded
      text, which has no leading zero. */
  lemma FieldWidth(n: nat)
    ensures n < 100 <==> |Field(n)| == 2
    ensures |Field(n)| == 2 || Field(n)[0] != '0'
    ensures n >= 100 ==> Field(n) == Decimal.NatToString(n)
  {
  }

  /** One update of the four fields. Every field is at least two digits; for a
      positive remaining time the four fields read back as the in-range split that
      covers it to the second, hours, minutes and seconds are exactly two digits and
      the days carry no padding beyond two digits; otherwise all four are "00" (the
      text a zero would get). */
  function Render(timeLeft: int): (d: Display)
    ensures |d.days| >= 2 && |d.hours| >= 2 && |d.minutes| >= 2 && |d.seconds| >= 2
    ensures Decimal.AllDigits(d.days) && Decimal.AllDigits(d.hours)
    ensures Decimal.AllDigits(d.minutes) && Decimal.AllDigits(d.seconds)
    ensures timeLeft > 0 ==>
      var q := Parts(Decimal.ParseNat(d.days), Decimal.ParseNat(d.hours),
                     Decimal.ParseNat(d.minutes), Decimal.ParseNat(d.seconds));
      InRange(q) && Total(q) <= timeLeft < Total(q) + MsPerSecond
    ensures timeLeft > 0 ==> |d.hours| == 2 && |d.minutes| == 2 && |d.seconds| == 2
    ensures timeLeft > 0 ==> |d.days| == 2 || d.days[0] != '0'
    ensures timeLeft <= 0 ==> d == Display("00", "00", "00", "00")
    ensures timeLeft <= 0 ==> d == Display(Field(0), Field(0), Field(0), Field(0))
  {
    if timeLeft > 0 then
      var p := Split(timeLeft);
      FieldReadsBack(p.days);
      FieldReadsBack(p.hours);
      FieldReadsBack(p.minutes);
      FieldReadsBack(p.seconds);
      FieldWidth(p.days);
      FieldWidth(p.hours);
      FieldWidth(p.minutes);
      FieldWidth(p.seconds);
      Display(Field(p.days), Field(p.hours), Field(p.minutes), Field(p.seconds))
    else
      assert Decimal.NatToString(0) == "0";
      Display("00", "00", "00", "00")
  }
}

=== FILE: decimal.dfy ===
/** Decimal text of non-negative integers, as JavaScript's `Number.prototype.toString()`
    and template interpolation produce it for the integers the page formats, together
    with the reading back that shows the text names the number. */
module Decimal {

  predicate IsDigit(c: char)
  {
    '0' <= c <= '9'
  }

  predicate AllDigits(s: string)
  {
    forall k :: 0 <= k < |s| ==> IsDigit(s[k])
  }

  function DigitChar(d: nat): (c: char)
    requires d < 10
    ensures IsDigit(c)
  {
    (('0' as int) + d) as char
  }

  function DigitValue(c: char): (d: nat)
    requires IsDigit(c)
    ensures d < 10
    ensures DigitChar(d) == c
  {
    (c as int) - ('0' as int)
  }

  /** The value of a string of decimal digits (leading zeros allowed). */
  function ParseNat(s: string): nat
    requires AllDigits(s)
  {
    if |s| == 0 then 0 else ParseNat(s[..|s| - 1]) * 10 + DigitValue(s[|s| - 1])
  }

  /** Shortest decimal text of `n`: at least one digit, no leading zero unless it is
      the single digit of zero, one digit exactly below ten and at most two exactly
      below a hundred, and it reads back as `n`. */
  function NatToString(n: nat): (r: string)
    ensures |r| >= 1
    ensures AllDigits(r)
    ensures |r| == 1 || r[0] != '0'
    ensures |r| == 1 <==> n < 10
    ensures |r| <= 2 <==> n < 100
    ensures ParseNat(r) == n
  {
    if n < 10 then
      [DigitChar(n)]
    else
      var p := NatToString(n / 10);
      var r := p + [DigitChar(n % 10)];
      assert r[..|r| - 1] == p;
      r
  }

  /** A leading '0' does not change the value read. */
  lemma {:induction false} LeadingZero(s: string)
    requires AllDigits(s)
    ensures AllDigits(['0'] + s)
    ensures ParseNat(['0'] + s) == ParseNat(s)
  {
    var z := ['0'] + s;
    if |s| > 0 {
      var p := s[..|s| - 1];
      assert z[..|z| - 1] == ['0'] + p;
      LeadingZero(p);
    }
  }

  /** Different numbers have different texts. */
  lemma NatToStringInjective(m: nat, n: nat)
    requires NatToString(m) == NatToString(n)
    ensures m == n
  {
  }
}

=== FILE: flags.dfy ===
/** Rows of on/off flags: the page keeps an 'active' (or 'shown') class on one
    element of a collection at a time, and the model keeps one boolean per element. */
module Flags {

  /** A row of `n` flags, none of them on. */
  function AllOff(n: nat): (r: seq<bool>)
    ensures |r| == n
    ensures forall k :: 0 <= k < n ==> !r[k]
  {
    seq(n, _ => false)
  }

  /** Number of flags that are on. */
  function CountOn(a: seq<bool>): (r: nat)
    ensures r <= |a|
  {
    if |a| == 0 then 0 else CountOn(a[..|a| - 1]) + (if a[|a| - 1] then 1 else 0)
  }

  /** A row whose flags are all on counts its length. */
  lemma {:induction false} AllOnCountsAll(a: seq<bool>)
    requires forall k :: 0 <= k < |a| ==> a[k]
    ensures CountOn(a) == |a|
  {
    if |a| > 0 {
      var p := a[..|a| - 1];
      assert forall k :: 0 <= k < |p| ==> p[k] == a[k];
      AllOnCountsAll(p);
    }
  }

  /** Exactly the flag at `i` is on. */
  predicate OnlyOn(a: seq<bool>, i: int)
  {
    0 <= i < |a| && forall k :: 0 <= k < |a| ==> (a[k] <==> k == i)
  }

  /** Clear every flag, then switch the one at `i` on: the idiom the page uses for
      slides, dots and filter buttons. */
  function Select(n: nat, i: nat): (r: seq<bool>)
    requires i < n
    ensures |r| == n
    ensures OnlyOn(r, i)
    ensures CountOn(r) == 1
  {
    var r := AllOff(n)[i := true];
    OnlyOnCountsOne(r, i);
    r
  }

  lemma {:induction false} CountOnPrefix(a: seq<bool>, i: int, m: nat)
    requires OnlyOn(a, i)
    requires m <= |a|
    ensures CountOn(a[..m]) == if i < m then 1 else 0
  {
    if m > 0 {
      assert a[..m][..m - 1] == a[..m - 1];
      CountOnPrefix(a, i, m - 1);
    }
  }

  /** A row with exactly one flag on counts one. */
  lemma OnlyOnCountsOne(a: seq<bool>, i: int)
    requires OnlyOn(a, i)
    ensures CountOn(a) == 1
  {
    CountOnPrefix(a, i, |a|);
    assert a[..|a|] == a;
  }

  lemma {:induction false} CountOnZero(a: seq<bool>)
    requires CountOn(a) == 0
    ensures forall k :: 0 <= k < |a| ==> !a[k]
  {
    if |a| > 0 {
      var p := a[..|a| - 1];
      CountOnZero(p);
      assert forall k :: 0 <= k < |p| ==> a[k] == p[k];
    }
  }

  /** Conversely, a row that counts one has exactly one flag on. */
  lemma {:induction false} CountOneIsOnlyOn(a: seq<bool>)
    requires CountOn(a) == 1
    ensures exists i :: OnlyOn(a, i)
  {
    var p := a[..|a| - 1];
    assert forall k :: 0 <= k < |p| ==> a[k] == p[k];
    if a[|a| - 1] {
      CountOnZero(p);
      assert OnlyOn(a, |a| - 1);
    } else {
      CountOneIsOnlyOn(p);
      var i :| OnlyOn(p, i);
      assert OnlyOn(a, i);
    }
  }
}

=== FILE: gallery.dfy ===
/** The photo gallery of `initializeGallery`: category filter buttons over an ordered
    list of items, the list of items currently displayed (`visibleItems`), and a
    lightbox that walks that list. Items are identified by their position in the
    page; `visibleItems` is kept as a list of such positions. */
module Gallery {
  import opened Optional
  import Flags
  import Decimal

  /** The filter value that keeps every item. */
  const AllFilter: string := "all"

  /** A gallery item: its `data-category`, its image, and its figcaption if any. */
  datatype Item = Item(category: string, src: string, alt: string, caption: Option<string>)

  /** What the lightbox overlay displays. */
  datatype View = View(src: string, alt: string, caption: string, counter: string)

  datatype Gallery = Gallery(
    items: seq<Item>,
    filters: seq<string>,     // data-filter of each filter button
    buttons: seq<bool>,       // 'active' class per filter button
    shown: seq<bool>,         // style.display !== 'none' per item
    visible: seq<nat>,        // visibleItems, as item positions
    current: int,             // currentImageIndex
    open: bool,               // lightbox has class 'show'
    view: View,
    scrollLocked: bool,       // body overflow 'hidden'
    chromeHidden: bool)       // navbar and back-to-top set to display 'none'

  /** Positions of the shown items, in page order (`updateVisibleItems`). */
  function ShownPositions(shown: seq<bool>): (r: seq<nat>)
    ensures |r| == Flags.CountOn(shown)
    ensures forall j :: 0 <= j < |r| ==> r[j] < |shown|
  {
    if |shown| == 0 then []
    else
      var p := shown[..|shown| - 1];
      ShownPositions(p) + (if shown[|shown| - 1] then [|shown| - 1] else [])
  }

  /** `updateVisibleItems` lists exactly the displayed items, in page order. */
  lemma {:induction false} ShownPositionsListsShown(shown: seq<bool>)
    ensures ListsShown(ShownPositions(shown), shown)
  {
    if |shown| > 0 {
      var p := shown[..|shown| - 1];
      ShownPositionsListsShown(p);
      ListsShownExtend(ShownPositions(p), shown);
    }
  }

  /** Appending the last item, when displayed, to a listing of the others lists all. */
  lemma ListsShownExtend(v: seq<nat>, shown: seq<bool>)
    requires |shown| > 0
    requires ListsShown(v, shown[..|shown| - 1])
    ensures ListsShown(v + (if shown[|shown| - 1] then [|shown| - 1] else []), shown)
  {
    var n := |shown| - 1;
    var t: seq<nat> := if shown[n] then [n] else [];
    ExtendNamesShown(v, shown, t);
    ExtendCoversShown(v, shown, t);
    ExtendIncreasing(v, shown, t);
  }

  lemma ExtendNamesShown(v: seq<nat>, shown: seq<bool>, t: seq<nat>)
    requires |shown| > 0
    requires ListsShown(v, shown[..|shown| - 1])
    requires t == if shown[|shown| - 1] then [|shown| - 1] else []
    ensures forall j :: 0 <= j < |v + t| ==> (v + t)[j] < |shown| && shown[(v + t)[j]]
  {
    var p := shown[..|shown| - 1];
    forall j | 0 <= j < |v + t|
      ensures (v + t)[j] < |shown| && shown[(v + t)[j]]
    {
      if j < |v| {
        assert (v + t)[j] == v[j] && p[v[j]] == shown[v[j]];
      }
    }
  }

  lemma ExtendCoversShown(v: seq<nat>, shown: seq<bool>, t: seq<nat>)
    requires |shown| > 0
    requires ListsShown(v, shown[..|shown| - 1])
    requires t == if shown[|shown| - 1] then [|shown| - 1] else []
    ensures forall k :: 0 <= k < |shown| && shown[k] ==> k in v + t
  {
    var n := |shown| - 1;
    var p := shown[..n];
    forall k | 0 <= k < |shown| && shown[k]
      ensures k in v + t
    {
      if k < n {
        assert p[k];
        var j :| 0 <= j < |v| && v[j] == k;
        assert (v + t)[j] == k;
      } else {
        assert (v + t)[|v|] == n;
      }
    }
  }

  lemma ExtendIncreasing(v: seq<nat>, shown: seq<bool>, t: seq<nat>)
    requires |shown| > 0
    requires ListsShown(v, shown[..|shown| - 1])
    requires t == if shown[|shown| - 1] then [|shown| - 1] else []
    ensures forall i, j :: 0 <= i < j < |v + t| ==> (v + t)[i] < (v + t)[j]
  {
    var n := |shown| - 1;
    var r := v + t;
    forall i, j | 0 <= i < j < |r|
      ensures r[i] < r[j]
    {
      if j >= |v| {
        assert r[i] == v[i] && v[i] < n;
      }
    }
  }

  /** `visibleItems` lists exactly the displayed items, each once, in page order. */
  predicate ListsShown(visible: seq<nat>, shown: seq<bool>)
  {
    && (forall j :: 0 <= j < |visible| ==> visible[j] < |shown| && shown[visible[j]])
    && (forall k :: 0 <= k < |shown| && shown[k] ==> k in visible)
    && (forall i, j :: 0 <= i < j < |visible| ==> visible[i] < visible[j])
  }

  /** The listing of the displayed items is unique: any list with the three
      properties above is the one `updateVisibleItems` computes. */
  lemma {:induction false} ListsShownUnique(visible: seq<nat>, shown: seq<bool>)
    requires ListsShown(visible, shown)
    ensures visible == ShownPositions(shown)
    decreases |shown|
  {
    if |shown| > 0 {
      var n := |shown| - 1;
      var p := shown[..n];
      if shown[n] {
        ListsShownLast(visible, shown);
        var v := visible[..|visible| - 1];
        ListsShownDropLast(visible, shown);
        ListsShownUnique(v, p);
        assert visible == v + [n];
        assert ShownPositions(shown) == ShownPositions(p) + [n];
      } else {
        ListsShownNotLast(visible, shown);
        ListsShownUnique(visible, p);
        assert ShownPositions(shown) == ShownPositions(p) + [];
      }
    }
  }

  /** A displayed last item closes the listing. */
  lemma ListsShownLast(visible: seq<nat>, shown: seq<bool>)
    requires ListsShown(visible, shown)
    requires |shown| > 0 && shown[|shown| - 1]
    ensures |visible| > 0 && visible[|visible| - 1] == |shown| - 1
  {
    var n := |shown| - 1;
    assert n in visible;
    var i :| 0 <= i < |visible| && visible[i] == n;
    var last := |visible| - 1;
    assert visible[last] < |shown|;
    assert forall j :: 0 <= j < last ==> visible[j] < visible[last];
    assert i == last;
  }

  /** A hidden last item is not in the listing. */
  lemma ListsShownNotLast(visible: seq<nat>, shown: seq<bool>)
    requires ListsShown(visible, shown)
    requires |shown| > 0 && !shown[|shown| - 1]
    ensures ListsShown(visible, shown[..|shown| - 1])
  {
    var n := |shown| - 1;
    var p := shown[..n];
    assert forall j :: 0 <= j < |visible| ==> visible[j] != n && visible[j] < n && p[visible[j]];
    forall k | 0 <= k < |p| && p[k]
      ensures k in visible
    {
      assert shown[k];
    }
  }

  /** Removing the last item of the page removes it from the listing. */
  lemma ListsShownDropLast(visible: seq<nat>, shown: seq<bool>)
    requires ListsShown(visible, shown)
    requires |shown| > 0 && |visible| > 0
    requires visible[|visible| - 1] == |shown| - 1
    ensures ListsShown(visible[..|visible| - 1], shown[..|shown| - 1])
  {
    var n, last := |shown| - 1, |visible| - 1;
    var v, p := visible[..last], shown[..n];
    assert forall j :: 0 <= j < |v| ==> v[j] == visible[j] && v[j] < visible[last];
    forall k | 0 <= k < |p| && p[k]
      ensures k in v
    {
      assert shown[k];
      var j :| 0 <= j < |visible| && visible[j] == k;
      assert j != last;
      assert v[j] == k;
    }
  }

  /** Position of `x` in `s`, or -1 (`Array.prototype.indexOf`). */
  function IndexOf(s: seq<nat>, x: nat): (r: int)
    ensures -1 <= r < |s|
    ensures r >= 0 ==> s[r] == x && forall j :: 0 <= j < r ==> s[j] != x
    ensures r == -1 <==> x !in s
  {
    if |s| == 0 then -1
    else if s[0] == x then 0
    else
      var i := IndexOf(s[1..], x);
      if i == -1 then -1 else i + 1
  }

  /** Counter text `"{index+1} / {total}"`. */
  function Counter(index: nat, total: nat): string
  {
    Decimal.NatToString(index + 1) + " / " + Decimal.NatToString(total)
  }

  /** The counter text names the position and the total unambiguously. */
  lemma CounterInjective(i: nat, n: nat, i': nat, n': nat)
    requires Counter(i, n) == Counter(i', n')
    ensures i == i' && n == n'
  {
    var a, a' := Decimal.NatToString(i + 1), Decimal.NatToString(i' + 1);
    var b, b' := Decimal.NatToString(n), Decimal.NatToString(n');
    var c, c' := Counter(i, n), Counter(i', n');
    assert forall k :: 0 <= k < |a| ==> c[k] == a[k] && c[k] != ' ';
    assert forall k :: 0 <= k < |a'| ==> c'[k] == a'[k] && c'[k] != ' ';
    assert c[|a|] == ' ' && c'[|a'|] == ' ';
    assert a == c[..|a|] == c'[..|a|] == a';
    assert b == c[|a| + 3..] == c'[|a| + 3..] == b';
    Decimal.NatToStringInjective(i + 1, i' + 1);
    Decimal.NatToStringInjective(n, n');
  }

  /** Shape of every gallery state. */
  predicate WellFormed(g: Gallery)
  {
    && |g.buttons| == |g.filters|
    && |g.shown| == |g.items|
    && ListsShown(g.visible, g.shown)
  }

  /** Lightbox invariant: while open it shows an item of `visibleItems`. */
  predicate Valid(g: Gallery)
  {
    WellFormed(g) && (g.open ==> 0 <= g.current < |g.visible|)
  }

  /** Page load: every item displayed, `visibleItems` computed, lightbox closed. */
  function Init(items: seq<Item>, filters: seq<string>, buttons: seq<bool>): (g: Gallery)
    requires |buttons| == |filters|
    ensures Valid(g)
    ensures |g.visible| == |items| && !g.open
    ensures g.items == items && g.filters == filters && g.buttons == buttons
    ensures forall k :: 0 <= k < |items| ==> g.shown[k]
    ensures !g.scrollLocked && !g.chromeHidden
  {
    var shown := seq(|items|, _ => true);
    Flags.AllOnCountsAll(shown);
    ShownPositionsListsShown(shown);
    Gallery(items, filters, buttons, shown, ShownPositions(shown), 0, false,
            View("", "", "", ""), false, false)
  }

  /** Does filter value `f` keep an item of category `category`? */
  predicate Keeps(f: string, category: string)
  {
    f == AllFilter || category == f
  }

  /** Click on filter button `b`. */
  function FilterClick(g: Gallery, b: nat): (r: Gallery)
    requires WellFormed(g)
    requires b < |g.filters|
    ensures WellFormed(r)
    ensures r.items == g.items && r.filters == g.filters
    ensures Flags.OnlyOn(r.buttons, b) && Flags.CountOn(r.buttons) == 1
    ensures forall k :: 0 <= k < |g.items| ==> (r.shown[k] <==> Keeps(g.filters[b], g.items[k].category))
    ensures ListsShown(r.visible, r.shown)
    ensures |r.visible| == Flags.CountOn(r.shown)
    ensures r.open == g.open && r.current == g.current && r.view == g.view
    ensures r == g.(buttons := r.buttons, shown := r.shown, visible := r.visible)
  {
    var f := g.filters[b];
    var shown := seq(|g.items|, k requires 0 <= k < |g.items| => Keeps(f, g.items[k].category));
    ShownPositionsListsShown(shown);
    g.(buttons := Flags.Select(|g.buttons|, b), shown := shown, visible := ShownPositions(shown))
  }

  /** `showImage(index)`: ignore an index outside `visibleItems`; otherwise display that
      item, number it, open the overlay, lock scrolling and hide the page chrome. */
  function ShowImage(g: Gallery, index: int): (r: Gallery)
    requires WellFormed(g)
    ensures WellFormed(r)
    ensures index < 0 || index >= |g.visible| ==> r == g
    ensures 0 <= index < |g.visible| ==>
      && r.open && r.current == index && r.scrollLocked && r.chromeHidden
      && r.view.src == g.items[g.visible[index]].src
      && r.view.alt == g.items[g.visible[index]].alt
      && r.view.caption == g.items[g.visible[index]].caption.GetOr(g.items[g.visible[index]].alt)
      && r.view.counter == Counter(index, |g.visible|)
      && r == g.(open := true, current := index, view := r.view, scrollLocked := true, chromeHidden := true)
    ensures g.open ==> r.open
  {
    if index < 0 || index >= |g.visible| then g
    else
      var item := g.items[g.visible[index]];
      var caption := match item.caption case Some(t) => t case None => item.alt;
      g.(current := index,
         view := View(item.src, item.alt, caption, Counter(index, |g.visible|)),
         open := true, scrollLocked := true, chromeHidden := true)
  }

  /** Index the "previous" control asks for. */
  function PrevTarget(g: Gallery): int
  {
    if g.current > 0 then g.current - 1 else |g.visible| - 1
  }

  /** Index the "next" control asks for. */
  function NextTarget(g: Gallery): int
  {
    if g.current < |g.visible| - 1 then g.current + 1 else 0
  }

  /** "Previous" (left arrow, swipe right, ArrowLeft key): wraps from the first item
      to the last; does nothing when no item is displayed. */
  function Prev(g: Gallery): (r: Gallery)
    requires WellFormed(g)
    ensures Valid(g) ==> Valid(r)
    ensures |g.visible| == 0 ==> r == g
    ensures 0 <= g.current < |g.visible| ==>
      r.open && r.current == (if g.current == 0 then |g.visible| - 1 else g.current - 1)
    ensures 0 <= g.current < |g.visible| ==> r == ShowImage(g, r.current)
  {
    ShowImage(g, PrevTarget(g))
  }

  /** "Next" (right arrow, swipe left, ArrowRight key): wraps from the last item to
      the first; does nothing when no item is displayed. */
  function Next(g: Gallery): (r: Gallery)
    requires WellFormed(g)
    ensures Valid(g) ==> Valid(r)
    ensures |g.visible| == 0 ==> r == g
    ensures 0 <= g.current < |g.visible| ==>
      r.open && r.current == (if g.current == |g.visible| - 1 then 0 else g.current + 1)
    ensures 0 <= g.current < |g.visible| ==> r == ShowImage(g, r.current)
  {
    ShowImage(g, NextTarget(g))
  }

  /** Next and previous undo each other inside a non-empty `visibleItems`. */
  lemma PrevNextInverse(g: Gallery)
    requires WellFormed(g)
    requires 0 <= g.current < |g.visible|
    ensures Prev(Next(g)).current == g.current
    ensures Next(Prev(g)).current == g.current
  {
  }

  /** Click on item `k`: recompute `visibleItems`, then show the item's place in it. */
  function ItemClick(g: Gallery, k: nat): (r: Gallery)
    requires WellFormed(g)
    requires k < |g.items|
    ensures WellFormed(r)
    ensures g.shown[k] ==> r.open && 0 <= r.current < |r.visible| && r.visible[r.current] == k
    ensures g.shown[k] ==> r.view.src == g.items[k].src
    ensures g.shown[k] ==> r == ShowImage(g, r.current)
    ensures !g.shown[k] ==> r == g
  {
    ListsShownUnique(g.visible, g.shown);
    var refreshed := g.(visible := ShownPositions(g.shown));
    ShowImage(refreshed, IndexOf(refreshed.visible, k))
  }

  /** Close button or a click on the overlay backdrop: the page chrome comes back. */
  function Close(g: Gallery): (r: Gallery)
    requires WellFormed(g)
    ensures Valid(r)
    ensures !r.open && !r.scrollLocked && !r.chromeHidden
    ensures r == g.(open := false, scrollLocked := false, chromeHidden := false)
  {
    g.(open := false, scrollLocked := false, chromeHidden := false)
  }

  datatype Key = Escape | ArrowLeft | ArrowRight | OtherKey

  /** Key press on the document. Ignored while the lightbox is closed. Escape closes
      it but, unlike `Close`, leaves the navbar and back-to-top hidden. */
  function KeyDown(g: Gallery, key: Key): (r: Gallery)
    requires WellFormed(g)
    ensures Valid(g) ==> Valid(r)
    ensures !g.open ==> r == g
    ensures g.open && key == Escape ==>
      !r.open && !r.scrollLocked && r.chromeHidden == g.chromeHidden && r.current == g.current
    ensures g.open && key == Escape ==> r == Close(g).(chromeHidden := g.chromeHidden)
    ensures g.open && key == ArrowLeft ==> r == Prev(g)
    ensures g.open && key == ArrowRight ==> r == Next(g)
    ensures key == OtherKey ==> r == g
  {
    if !g.open then g
    else match key
      case Escape => g.(open := false, scrollLocked := false)
      case ArrowLeft => Prev(g)
      case ArrowRight => Next(g)
      case OtherKey => g
  }

  /** As written, Escape closes the lightbox but leaves the navbar and back-to-top
      hidden: the page is left without its navigation after an Escape close. */
  lemma EscapeLeavesChromeHidden(g: Gallery)
    requires Valid(g)
    requires g.open && g.chromeHidden
    ensures !KeyDown(g, Escape).open
    ensures KeyDown(g, Escape).chromeHidden
    ensures KeyDown(g, Escape) != Close(g)
    ensures KeyDown(g, Escape) == Close(g).(chromeHidden := true)
  {
  }

  /** Key press with the Escape path restoring the page chrome like the close button
      and the backdrop do. */
  function KeyDownRestoring(g: Gallery, key: Key): (r: Gallery)
    requires WellFormed(g)
    ensures Valid(g) ==> Valid(r)
    ensures g.open && key == Escape ==> r == Close(g)
    ensures key != Escape ==> r == KeyDown(g, key)
    ensures !g.open ==> r == g
  {
    if g.open && key == Escape then Close(g) else KeyDown(g, key)
  }

  /** With the correction every way of closing the lightbox leaves the same page: no
      overlay, scrolling unlocked, navbar and back-to-top shown. */
  lemma EveryCloseRestoresChrome(g: Gallery)
    requires Valid(g)
    requires g.open
    ensures var r := KeyDownRestoring(g, Escape);
      !r.open && !r.scrollLocked && !r.chromeHidden && r == Close(g)
  {
  }

  /** After the last item comes the first, and before the first the last. */
  lemma WrapAround(g: Gallery)
    requires WellFormed(g)
    requires |g.visible| > 0
    ensures g.current == |g.visible| - 1 ==> Next(g).current == 0
    ensures g.current == 0 ==> Prev(g).current == |g.visible| - 1
  {
  }

  /** Ten items, four of them "ceremony": filtering on "ceremony" leaves four, and the
      second ceremony item opens as "2 / 4". */
  lemma CeremonyScenario(c: Item, o: Item)
    requires c.category == "ceremony" && o.category == "reception"
    ensures
      var g := Init([c, o, c, o, o, c, o, o, c, o], ["all", "ceremony", "reception"], [true, false, false]);
      var f := FilterClick(g, 1);
      |f.visible| == 4 && ItemClick(f, 2).view.counter == "2 / 4"
  {
    var g := Init([c, o, c, o, o, c, o, o, c, o], ["all", "ceremony", "reception"], [true, false, false]);
    var f := FilterClick(g, 1);
    CeremonyFiltered(c, o, g, f);
    assert IndexOf(f.visible, 2) == 1;
    assert Decimal.NatToString(2) == "2" && Decimal.NatToString(4) == "4";
    assert ItemClick(f, 2) == ShowImage(f, 1);
  }

  lemma CeremonyFiltered(c: Item, o: Item, g: Gallery, f: Gallery)
    requires c.category == "ceremony" && o.category == "reception"
    requires g == Init([c, o, c, o, o, c, o, o, c, o], ["all", "ceremony", "reception"], [true, false, false])
    requires f == FilterClick(g, 1)
    ensures f.visible == [0, 2, 5, 8]
  {
    assert !Keeps("ceremony", "reception") && Keeps("ceremony", "ceremony");
    assert f.shown == [true, false, true, false, false, true, false, false, true, false];
    CeremonyListing(f.visible);
  }

  lemma CeremonyListing(v: seq<nat>)
    requires ListsShown(v, [true, false, true, false, false, true, false, false, true, false])
    ensures v == [0, 2, 5, 8]
  {
    var shown := [true, false, true, false, false, true, false, false, true, false];
    assert ListsShown([0, 2, 5, 8], shown);
    ListsShownUnique(v, shown);
    ListsShownUnique([0, 2, 5, 8], shown);
  }
}

=== FILE: optional.dfy ===
/** An optional value, for the page's variables that may hold nothing yet. */
module Optional {

  datatype Option<T> = None | Some(value: T) {

    /** The value held, or `default` when there is none. */
    function GetOr(default: T): T
    {
      match this
      case Some(v) => v
      case None => default
    }
  }
}

=== FILE: reveal.dfy ===
/** Scroll reveal of the gallery rows (`setupScrollReveal` inside `initializeGallery`):
    the set `visibleRows` of row indices, updated by intersection-observer entries.
    A row is revealed whenever it enters the viewport, and hidden again only when it
    leaves while the page is not scrolling down. Row 0 is never observed and is always
    in the set. The scroll position is an input carried by each leaving entry. */
module ScrollReveal {

  /** One intersection-observer entry: the row's index among the gallery rows, whether
      it is intersecting, and `window.scrollY` when the callback reads it. The page
      reads `window.scrollY` inside one synchronous callback, so all entries of one
      batch see the same value; a per-entry position also covers entries delivered
      in separate callbacks. */
  datatype Entry = Entry(row: int, intersecting: bool, scrollY: int)

  datatype Reveal = Reveal(rows: set<int>, lastScrollY: int)

  /** Page load: only row 0 is revealed; the scroll position is remembered. */
  function Init(scrollY: int): (r: Reveal)
    ensures r.rows == {0}
    ensures r.lastScrollY == scrollY
  {
    Reveal({0}, scrollY)
  }

  /** Handling of one entry. */
  function Observe(r: Reveal, e: Entry): (r': Reveal)
    ensures 0 in r.rows ==> 0 in r'.rows
    ensures e.intersecting && e.row > 0 ==> e.row in r'.rows
    ensures !e.intersecting && e.row > 0 && e.scrollY <= r.lastScrollY ==> e.row !in r'.rows
    ensures r'.rows - {e.row} == r.rows - {e.row}
    ensures e.row <= 0 ==> r'.rows == r.rows
    ensures !e.intersecting && e.scrollY > r.lastScrollY ==> r'.rows == r.rows
    ensures e.row in r'.rows ==> e.row in r.rows || e.intersecting
    ensures r'.lastScrollY == if e.intersecting then r.lastScrollY else e.scrollY
  {
    if e.intersecting then
      if e.row > 0 then r.(rows := r.rows + {e.row}) else r
    else
      var scrollingDown := e.scrollY > r.lastScrollY;
      var rows := if e.row > 0 && !scrollingDown then r.rows - {e.row} else r.rows;
      Reveal(rows, e.scrollY)
  }

  /** A batch of entries, handled in order (`entries.forEach`). */
  function ObserveAll(r: Reveal, es: seq<Entry>): Reveal
    decreases |es|
  {
    if |es| == 0 then r else ObserveAll(Observe(r, es[0]), es[1..])
  }

  /** The same batch, handled by a loop. */
  method ObserveLoop(r: Reveal, es: seq<Entry>) returns (r': Reveal)
    ensures 0 in r.rows ==> 0 in r'.rows
    ensures forall k :: (forall j :: 0 <= j < |es| ==> es[j].row != k) ==> (k in r'.rows <==> k in r.rows)
    ensures (forall j :: 0 <= j < |es| ==> es[j].intersecting) ==> r'.lastScrollY == r.lastScrollY
    ensures |es| > 0 && !es[|es| - 1].intersecting ==> r'.lastScrollY == es[|es| - 1].scrollY
    ensures |es| > 0 && es[|es| - 1].intersecting && es[|es| - 1].row > 0 ==> es[|es| - 1].row in r'.rows
    ensures r' == ObserveAll(r, es)
  {
    r' := r;
    var i := 0;
    while i < |es|
      invariant 0 <= i <= |es|
      invariant 0 in r.rows ==> 0 in r'.rows
      invariant forall k :: (forall j :: 0 <= j < i ==> es[j].row != k) ==> (k in r'.rows <==> k in r.rows)
      invariant (forall j :: 0 <= j < i ==> es[j].intersecting) ==> r'.lastScrollY == r.lastScrollY
      invariant i > 0 && !es[i - 1].intersecting ==> r'.lastScrollY == es[i - 1].scrollY
      invariant i > 0 && es[i - 1].intersecting && es[i - 1].row > 0 ==> es[i - 1].row in r'.rows
      invariant ObserveAll(r', es[i..]) == ObserveAll(r, es)
    {
      assert es[i..][1..] == es[i + 1..];
      r' := Observe(r', es[i]);
      i := i + 1;
    }
  }

  /** Row 0 stays revealed through any sequence of entries. */
  lemma {:induction false} RowZeroAlways(r: Reveal, es: seq<Entry>)
    requires 0 in r.rows
    ensures 0 in ObserveAll(r, es).rows
    decreases |es|
  {
    if |es| > 0 {
      RowZeroAlways(Observe(r, es[0]), es[1..]);
    }
  }

  /** Every leaving entry finds the page further down than the previous leaving entry
      (or than the position remembered before the batch). */
  predicate ScrollingDown(last: int, es: seq<Entry>)
    decreases |es|
  {
    if |es| == 0 then true
    else if es[0].intersecting then ScrollingDown(last, es[1..])
    else es[0].scrollY > last && ScrollingDown(es[0].scrollY, es[1..])
  }

  /** While the page scrolls down, revealed rows stay revealed. */
  lemma {:induction false} DownwardNeverHides(r: Reveal, es: seq<Entry>)
    requires ScrollingDown(r.lastScrollY, es)
    ensures r.rows <= ObserveAll(r, es).rows
    decreases |es|
  {
    if |es| > 0 {
      var r1 := Observe(r, es[0]);
      assert r.rows <= r1.rows;
      DownwardNeverHides(r1, es[1..]);
    }
  }

  /** Entering rows are all revealed at the end of a downward scroll. */
  lemma {:induction false} DownwardRevealsEntered(r: Reveal, es: seq<Entry>, j: nat)
    requires ScrollingDown(r.lastScrollY, es)
    requires j < |es| && es[j].intersecting && es[j].row > 0
    ensures es[j].row in ObserveAll(r, es).rows
    decreases |es|
  {
    var r1 := Observe(r, es[0]);
    if j == 0 {
      DownwardNeverHides(r1, es[1..]);
    } else {
      DownwardRevealsEntered(r1, es[1..], j - 1);
    }
  }

  /** Two rows leaving in one callback while the page scrolls down: the first leaving
      entry records the new position, so the second finds no downward movement and
      its row is hidden even though the page is scrolling down. */
  lemma SameBatchHidesSecondLeaving(r: Reveal, a: int, b: int, y: int)
    requires a > 0 && b > 0 && a != b
    requires a in r.rows && b in r.rows
    requires y > r.lastScrollY
    ensures var r' := ObserveAll(r, [Entry(a, false, y), Entry(b, false, y)]);
      a in r'.rows && b !in r'.rows && r'.lastScrollY == y
  {
    var r1 := Observe(r, Entry(a, false, y));
    assert [Entry(a, false, y), Entry(b, false, y)][1..] == [Entry(b, false, y)];
    assert ObserveAll(r1, [Entry(b, false, y)]) == Observe(r1, Entry(b, false, y));
  }
}

=== FILE: rsvp.dfy ===
/** The RSVP form's submit handler (`initializeRSVPForm`): the required-field check,
    then the email pattern check, then the plain-text message handed to the mail,
    WhatsApp and SMS links. The links themselves (URI encoding, window.open) are not
    part of this model. */
module Rsvp {

  /** JavaScript's `\s`: the white-space and line-terminator characters of
      ECMAScript (tab, vertical tab, form feed, space, no-break space, byte-order
      mark, the Unicode space separators, line feed, carriage return, and the line
      and paragraph separators). */
  predicate IsSpace(c: char)
  {
    || c == '\t' || c == '\n' || c == '\U{0B}' || c == '\U{0C}' || c == '\r' || c == ' '
    || c == '\U{A0}' || c == '\U{1680}' || ('\U{2000}' <= c <= '\U{200A}')
    || c == '\U{2028}' || c == '\U{2029}' || c == '\U{202F}' || c == '\U{205F}'
    || c == '\U{3000}' || c == '\U{FEFF}'
  }

  /** A character of the class `[^\s@]`. */
  predicate Plain(c: char)
  {
    !IsSpace(c) && c != '@'
  }

  /** A run of the pattern `[^\s@]+`. */
  predicate PlainRun(s: string)
  {
    |s| > 0 && forall k :: 0 <= k < |s| ==> Plain(s[k])
  }

  /** The email pattern `^[^\s@]+@[^\s@]+\.[^\s@]+$`, read as: the text splits into
      a plain run, '@', a plain run, '.', and a plain run. */
  ghost predicate MatchesEmailPattern(s: string)
  {
    exists i, j :: 0 < i < j < |s| && s[i] == '@' && s[j] == '.'
      && PlainRun(s[..i]) && PlainRun(s[i + 1..j]) && PlainRun(s[j + 1..])
  }

  /** Position of the first `c` in `s`, or `|s|` when there is none. */
  function FirstIndex(s: string, c: char): (p: nat)
    ensures p <= |s|
    ensures p < |s| ==> s[p] == c
    ensures forall k :: 0 <= k < p ==> s[k] != c
  {
    if |s| == 0 then 0
    else if s[0] == c then 0
    else 1 + FirstIndex(s[1..], c)
  }

  /** The email check, as a scan: no white space, exactly one '@' and not first, and
      a '.' after it that is neither right after the '@' nor last. */
  predicate ValidEmail(s: string)
  {
    && (forall k :: 0 <= k < |s| ==> !IsSpace(s[k]))
    && var p := FirstIndex(s, '@');
       && 0 < p < |s|
       && (forall k :: p < k < |s| ==> s[k] != '@')
       && (exists j :: p + 1 < j < |s| - 1 && s[j] == '.')
  }

  /** The scan accepts exactly the texts the pattern matches. */
  lemma ValidEmailIsPattern(s: string)
    ensures ValidEmail(s) <==> MatchesEmailPattern(s)
  {
    if ValidEmail(s) {
      ScanImpliesPattern(s);
    }
    if MatchesEmailPattern(s) {
      var i, j :| 0 < i < j < |s| && s[i] == '@' && s[j] == '.'
        && PlainRun(s[..i]) && PlainRun(s[i + 1..j]) && PlainRun(s[j + 1..]);
      PatternImpliesScan(s, i, j);
    }
  }

  lemma ScanImpliesPattern(s: string)
    requires ValidEmail(s)
    ensures MatchesEmailPattern(s)
  {
    var p := FirstIndex(s, '@');
    var j :| p + 1 < j < |s| - 1 && s[j] == '.';
    assert PlainRun(s[..p]);
    assert PlainRun(s[p + 1..j]);
    assert PlainRun(s[j + 1..]);
  }

  lemma PatternImpliesScan(s: string, i: int, j: int)
    requires 0 < i < j < |s| && s[i] == '@' && s[j] == '.'
    requires PlainRun(s[..i]) && PlainRun(s[i + 1..j]) && PlainRun(s[j + 1..])
    ensures ValidEmail(s)
  {
    forall k | 0 <= k < |s|
      ensures !IsSpace(s[k])
      ensures k != i ==> s[k] != '@'
    {
      if k < i {
        assert s[k] == s[..i][k];
      } else if i < k < j {
        assert s[k] == s[i + 1..j][k - i - 1];
      } else if j < k {
        assert s[k] == s[j + 1..][k - j - 1];
      }
    }
    assert FirstIndex(s, '@') == i;
    assert i + 1 < j < |s| - 1;
  }

  /** The submitted form; an absent or empty field is the empty string;
      a field of spaces only counts as filled. */
  datatype Form = Form(
    fullName: string,
    email: string,
    phone: string,
    guests: string,
    attendance: string,
    category: string)

  datatype Outcome =
    | Rejected(notice: string)   // inline error message, nothing is sent
    | Accepted(message: string)  // the message offered to the delivery links

  const MissingFieldsNotice: string := "Please fill in all required fields."
  const InvalidEmailNotice: string := "Please enter a valid email address."
  const NoPhone: string := "Not provided"
  const NoCategory: string := "None"

  predicate MissingRequired(f: Form)
  {
    f.fullName == "" || f.email == "" || f.guests == "" || f.attendance == ""
  }

  /** The lines of the message template, with the phone and category defaults. */
  function MessageLines(f: Form): seq<string>
  {
    [ "Hello, RSVP for Fauzia & Kuffour Wedding:",
      "\U{1F464} Name: " + f.fullName,
      "\U{1F4E7} Email: " + f.email,
      "\U{1F4DE} Phone: " + (if f.phone == "" then NoPhone else f.phone),
      "\U{1F465} Guests: " + f.guests,
      "\U{2705} Attendance: " + f.attendance,
      "\U{1F4C2} Category: " + (if f.category == "" then NoCategory else f.category),
      "Thank you!" ]
  }

  /** Lines joined by line feeds, as a multi-line template literal writes them. */
  function JoinLines(lines: seq<string>): string
    requires |lines| > 0
  {
    if |lines| == 1 then lines[0] else lines[0] + "\n" + JoinLines(lines[1..])
  }

  /** Text cut at every line feed. */
  function SplitLines(s: string): (r: seq<string>)
    ensures |r| > 0
    decreases |s|
  {
    var p := FirstIndex(s, '\n');
    if p == |s| then [s] else [s[..p]] + SplitLines(s[p + 1..])
  }

  predicate NoLineFeed(s: string)
  {
    forall k :: 0 <= k < |s| ==> s[k] != '\n'
  }

  /** Joining lines that hold no line feed and cutting the text again gives the lines back. */
  lemma {:induction false} SplitJoin(lines: seq<string>)
    requires |lines| > 0
    requires forall i :: 0 <= i < |lines| ==> NoLineFeed(lines[i])
    ensures SplitLines(JoinLines(lines)) == lines
    decreases |lines|
  {
    var a := lines[0];
    assert FirstIndex(a, '\n') == |a|;
    if |lines| > 1 {
      var rest := JoinLines(lines[1..]);
      var s := a + "\n" + rest;
      assert FirstIndex(s, '\n') == |a| by {
        assert s[|a|] == '\n';
        assert forall k :: 0 <= k < |a| ==> s[k] == a[k];
      }
      assert s[..|a|] == a;
      assert s[|a| + 1..] == rest;
      SplitJoin(lines[1..]);
    }
  }

  lemma LabelledLine(prefix: string, value: string)
    requires NoLineFeed(prefix) && NoLineFeed(value)
    ensures NoLineFeed(prefix + value)
  {
    assert forall k :: |prefix| <= k < |prefix + value| ==> (prefix + value)[k] == value[k - |prefix|];
  }

  /** The message text built from the form. */
  function Message(f: Form): string
  {
    JoinLines(MessageLines(f))
  }

  /** The message reads back line by line: eight lines, each field on its own line
      after its label, provided no field holds a line feed. */
  lemma MessageReadsBack(f: Form)
    requires NoLineFeed(f.fullName) && NoLineFeed(f.email) && NoLineFeed(f.phone)
    requires NoLineFeed(f.guests) && NoLineFeed(f.attendance) && NoLineFeed(f.category)
    ensures var lines := SplitLines(Message(f));
      && |lines| == 8
      && lines[1] == "\U{1F464} Name: " + f.fullName
      && lines[2] == "\U{1F4E7} Email: " + f.email
      && lines[3] == "\U{1F4DE} Phone: " + (if f.phone == "" then NoPhone else f.phone)
      && lines[6] == "\U{1F4C2} Category: " + (if f.category == "" then NoCategory else f.category)
  {
    var phone := if f.phone == "" then NoPhone else f.phone;
    var category := if f.category == "" then NoCategory else f.category;
    LabelledLine("\U{1F464} Name: ", f.fullName);
    LabelledLine("\U{1F4E7} Email: ", f.email);
    LabelledLine("\U{1F4DE} Phone: ", phone);
    LabelledLine("\U{1F465} Guests: ", f.guests);
    LabelledLine("\U{2705} Attendance: ", f.attendance);
    LabelledLine("\U{1F4C2} Category: ", category);
    var lines := MessageLines(f);
    assert forall i :: 0 <= i < |lines| ==> NoLineFeed(lines[i]);
    SplitJoin(lines);
  }

  /** An empty phone reads exactly like the literal "Not provided", and an empty
      category exactly like "None". */
  lemma DefaultsAreIndistinguishable(f: Form)
    ensures Message(f.(phone := "")) == Message(f.(phone := NoPhone))
    ensures Message(f.(category := "")) == Message(f.(category := NoCategory))
  {
    assert MessageLines(f.(phone := "")) == MessageLines(f.(phone := NoPhone));
    assert MessageLines(f.(category := "")) == MessageLines(f.(category := NoCategory));
  }

  /** The submit handler: required fields first, then the email pattern. */
  function Submit(f: Form): (r: Outcome)
    ensures r == Rejected(MissingFieldsNotice) <==> MissingRequired(f)
    ensures r == Rejected(InvalidEmailNotice) <==> !MissingRequired(f) && !MatchesEmailPattern(f.email)
    ensures r.Accepted? <==> !MissingRequired(f) && MatchesEmailPattern(f.email)
    ensures r.Accepted? ==> r.message == Message(f)
  {
    ValidEmailIsPattern(f.email);
    if MissingRequired(f) then Rejected(MissingFieldsNotice)
    else if !ValidEmail(f.email) then Rejected(InvalidEmailNotice)
    else Accepted(Message(f))
  }

  /** An empty email is reported as a missing field, not as a malformed address. */
  lemma EmptyEmailIsMissing(f: Form)
    requires f.email == ""
    ensures Submit(f) == Rejected(MissingFieldsNotice)
  {
  }

  /** "a@b" has no dot after the '@' and is refused. */
  lemma NoTopLevelDomainRefused(f: Form)
    requires f.email == "a@b"
    requires f.fullName != "" && f.guests != "" && f.attendance != ""
    ensures Submit(f) == Rejected(InvalidEmailNotice)
  {
    assert !ValidEmail("a@b");
    ValidEmailIsPattern("a@b");
  }

  /** "a@b.c" is accepted. */
  lemma ShortAddressAccepted(f: Form)
    requires f.email == "a@b.c"
    requires f.fullName != "" && f.guests != "" && f.attendance != ""
    ensures Submit(f).Accepted?
  {
    assert FirstIndex("a@b.c", '@') == 1;
    assert "a@b.c"[3] == '.';
    assert ValidEmail("a@b.c");
  }
}

=== FILE: slider.dfy ===
/** The hero slider of `setupHeroSlider`: a ring of slides, one of which holds the
    hero video, advanced by a recurring autoplay interval and by guarded manual
    controls. The DOM is replaced by explicit fields: one 'active' flag per slide
    and per dot, the `slideInterval` variable, and the set of interval handles the
    browser would still fire. The media element is reduced to the last command
    `showSlide` gave it; whether the video has ended is an input of the events
    that read it. */
module HeroSlider {
  import opened Optional
  import Flags

  /** The slide that holds the video (hard-coded in the page script). */
  const VideoSlide: nat := 3

  /** What `showSlide` last did to the video element. */
  datatype MediaCommand = Untouched | PlayFromStart | Pause

  datatype Slider = Slider(
    count: nat,               // slides.length; the dots are as many
    hasVideo: bool,           // the page has the #hero-video element
    current: nat,             // currentSlide
    slides: seq<bool>,        // 'active' class per slide
    dots: seq<bool>,          // 'active' class per dot
    interval: Option<nat>,    // the slideInterval variable
    live: set<nat>,           // interval handles that still fire
    nextHandle: nat,          // the handle the next setInterval returns
    media: MediaCommand)

  /** Timer bookkeeping: only the handle held in `slideInterval` can still fire,
      and every live handle was issued before `nextHandle`. */
  predicate TimerOk(s: Slider)
  {
    && (forall h :: h in s.live ==> s.interval == Some(h))
    && (forall h :: h in s.live ==> h < s.nextHandle)
  }

  /** Shape of every state, including the one before the first `showSlide`. */
  predicate WellFormed(s: Slider)
  {
    && s.count > 0
    && |s.slides| == s.count
    && |s.dots| == s.count
    && s.current < s.count
    && TimerOk(s)
  }

  /** Every state after initialisation: exactly the current slide and dot are active. */
  predicate Valid(s: Slider)
  {
    && WellFormed(s)
    && Flags.OnlyOn(s.slides, s.current)
    && Flags.OnlyOn(s.dots, s.current)
  }

  /** The page as loaded, before the script runs. */
  function Loaded(count: nat, hasVideo: bool): (s: Slider)
    requires count > 0
    ensures WellFormed(s)
  {
    Slider(count, hasVideo, 0, Flags.AllOff(count), Flags.AllOff(count), None, {}, 1, Untouched)
  }

  /** `stopAutoSlide`: clearInterval(slideInterval); the variable keeps its value. */
  function StopAutoSlide(s: Slider): (r: Slider)
    requires WellFormed(s)
    ensures WellFormed(r)
    ensures r.live == {}
    ensures r == s.(live := r.live)
  {
    match s.interval
    case None => s
    case Some(h) => s.(live := s.live - {h})
  }

  /** `slideInterval = setInterval(...)`: a fresh handle joins the firing intervals and
      the variable holds it. An interval that was firing keeps firing, so the timer
      bookkeeping survives exactly when nothing was live before. */
  function Arm(s: Slider): (r: Slider)
    requires WellFormed(s)
    ensures r.interval.Some? && r.interval.value !in s.live
    ensures r.live == s.live + {r.interval.value}
    ensures |r.live| == |s.live| + 1
    ensures TimerOk(r) <==> s.live == {}
    ensures r == s.(interval := r.interval, live := r.live, nextHandle := r.nextHandle)
  {
    var h := s.nextHandle;
    s.(interval := Some(h), live := s.live + {h}, nextHandle := h + 1)
  }

  /** `startAutoSlide`: clear the interval held, then arm a fresh one. At most one
      interval is live afterwards, whatever was live before. */
  function StartAutoSlide(s: Slider): (r: Slider)
    requires WellFormed(s)
    ensures WellFormed(r)
    ensures r.interval.Some? && r.live == {r.interval.value}
    ensures r.interval.value !in s.live
    ensures r == s.(interval := r.interval, live := r.live, nextHandle := r.nextHandle)
  {
    Arm(StopAutoSlide(s))
  }

  /** The clear in `startAutoSlide` is what keeps one interval: arming over a firing
      interval leaves two firing, and the older one is no longer held in
      `slideInterval`, so no later `clearInterval` can stop it. */
  lemma {:induction false} ArmWithoutClearLeaks(s: Slider)
    requires WellFormed(s)
    requires s.live != {}
    ensures |Arm(s).live| == 2
    ensures !TimerOk(Arm(s))
    ensures StopAutoSlide(s).live == {}
    ensures exists h :: h in Arm(s).live && Arm(s).interval != Some(h)
  {
    AtMostOneInterval(s);
    var h :| h in s.live;
    assert h in Arm(s).live && Arm(s).interval != Some(h);
  }

  /** The command `showSlide(index)` leaves the video with: play from the start on the
      video slide, pause anywhere else; without a video there is nothing to command. */
  function MediaAfter(s: Slider, index: nat): MediaCommand
  {
    if index == VideoSlide && s.hasVideo then PlayFromStart
    else if s.hasVideo then Pause
    else s.media
  }

  /** `r` is `s` after `showSlide(index)`, told by its effect: slide and dot `index` are
      the only active ones, the interval is cleared on the video slide (with a video)
      and untouched elsewhere, the video gets `MediaAfter`, and nothing else changes. */
  predicate Shows(s: Slider, r: Slider, index: nat)
  {
    && Valid(r) && r.current == index
    && r.count == s.count && r.hasVideo == s.hasVideo
    && r.interval == s.interval && r.nextHandle == s.nextHandle
    && r.live == (if index == VideoSlide && s.hasVideo then {} else s.live)
    && r.media == MediaAfter(s, index)
  }

  /** The effect determines the state: two states showing the same slide from the
      same start are equal. */
  lemma ShowsUnique(s: Slider, a: Slider, b: Slider, index: nat)
    requires Shows(s, a, index) && Shows(s, b, index)
    ensures a == b
  {
    assert a.slides == b.slides by {
      assert forall k :: 0 <= k < |a.slides| ==> (a.slides[k] <==> b.slides[k]);
    }
    assert a.dots == b.dots by {
      assert forall k :: 0 <= k < |a.dots| ==> (a.dots[k] <==> b.dots[k]);
    }
  }

  /** `showSlide(index)`: make slide and dot `index` the only active ones; on the video
      slide stop autoplay and play the video from the start, elsewhere pause it. */
  function ShowSlide(s: Slider, index: nat): (r: Slider)
    requires WellFormed(s)
    requires index < s.count
    ensures Valid(r)
    ensures r.current == index
    ensures Flags.CountOn(r.slides) == 1 && r.slides[index]
    ensures Flags.CountOn(r.dots) == 1 && r.dots[index]
    ensures index == VideoSlide && s.hasVideo ==> r.live == {} && r.media == PlayFromStart
    ensures !(index == VideoSlide && s.hasVideo) ==> r.live == s.live
    ensures !(index == VideoSlide && s.hasVideo) ==> r.media == (if s.hasVideo then Pause else s.media)
    ensures r.count == s.count && r.hasVideo == s.hasVideo
    ensures Shows(s, r, index)
  {
    var shown := s.(slides := Flags.Select(s.count, index), dots := Flags.Select(s.count, index), current := index);
    if index == VideoSlide && s.hasVideo then
      StopAutoSlide(shown).(media := PlayFromStart)
    else if s.hasVideo then
      shown.(media := Pause)
    else
      shown
  }

  /** `(currentSlide + 1) % slides.length`. */
  function NextIndex(i: nat, n: nat): (r: nat)
    requires i < n
    ensures r < n
    ensures r == if i == n - 1 then 0 else i + 1
  {
    (i + 1) % n
  }

  /** `(currentSlide - 1 + slides.length) % slides.length`. */
  function PrevIndex(i: nat, n: nat): (r: nat)
    requires i < n
    ensures r < n
    ensures r == if i == 0 then n - 1 else i - 1
  {
    (i - 1 + n) % n
  }

  /** Stepping forward then back, or back then forward, returns to the same slide. */
  lemma NextPrevInverse(i: nat, n: nat)
    requires i < n
    ensures PrevIndex(NextIndex(i, n), n) == i
    ensures NextIndex(PrevIndex(i, n), n) == i
  {
  }

  function NextSlide(s: Slider): (r: Slider)
    requires Valid(s)
    ensures Valid(r)
    ensures r.current == NextIndex(s.current, s.count)
    ensures Shows(s, r, NextIndex(s.current, s.count))
  {
    ShowSlide(s, NextIndex(s.current, s.count))
  }

  function PrevSlide(s: Slider): (r: Slider)
    requires Valid(s)
    ensures Valid(r)
    ensures r.current == PrevIndex(s.current, s.count)
    ensures Shows(s, r, PrevIndex(s.current, s.count))
  {
    ShowSlide(s, PrevIndex(s.current, s.count))
  }

  /** The autoplay callback, delivered only while an interval is live: it skips the
      video slide and otherwise advances one slide. */
  function Tick(s: Slider): (r: Slider)
    requires Valid(s)
    ensures Valid(r)
    ensures s.live == {} ==> r == s
    ensures s.current == VideoSlide ==> r == s
    ensures s.live != {} && s.current != VideoSlide ==> r.current == (s.current + 1) % s.count
    ensures s.live != {} && s.current != VideoSlide ==> Shows(s, r, NextIndex(s.current, s.count))
    ensures r.count == s.count && r.hasVideo == s.hasVideo
    ensures s.live != {} && s.current != VideoSlide ==>
      r.live == (if r.current == VideoSlide && s.hasVideo then {} else s.live)
  {
    if s.live == {} then s
    else if s.current != VideoSlide then NextSlide(s)
    else s
  }

  /** Manual navigation is refused while the video slide shows a video that has not ended. */
  predicate Blocked(s: Slider, videoEnded: bool)
  {
    s.current == VideoSlide && s.hasVideo && !videoEnded
  }

  /** Click on the "next" button. */
  function NextClick(s: Slider, videoEnded: bool): (r: Slider)
    requires Valid(s)
    ensures Valid(r)
    ensures Blocked(s, videoEnded) ==> r == s
    ensures !Blocked(s, videoEnded) ==>
      r.current == NextIndex(s.current, s.count) && r.interval.Some? && r.live == {r.interval.value}
    ensures !Blocked(s, videoEnded) ==> r.media == MediaAfter(s, NextIndex(s.current, s.count))
    ensures r.count == s.count && r.hasVideo == s.hasVideo
  {
    if Blocked(s, videoEnded) then s else StartAutoSlide(NextSlide(s))
  }

  /** Click on the "previous" button. */
  function PrevClick(s: Slider, videoEnded: bool): (r: Slider)
    requires Valid(s)
    ensures Valid(r)
    ensures Blocked(s, videoEnded) ==> r == s
    ensures !Blocked(s, videoEnded) ==>
      r.current == PrevIndex(s.current, s.count) && r.interval.Some? && r.live == {r.interval.value}
    ensures !Blocked(s, videoEnded) ==> r.media == MediaAfter(s, PrevIndex(s.current, s.count))
    ensures r.count == s.count && r.hasVideo == s.hasVideo
  {
    if Blocked(s, videoEnded) then s else StartAutoSlide(PrevSlide(s))
  }

  /** Click on dot `index`; the video slide's own dot is never refused. */
  function DotClick(s: Slider, index: nat, videoEnded: bool): (r: Slider)
    requires Valid(s)
    requires index < s.count
    ensures Valid(r)
    ensures Blocked(s, videoEnded) && index != VideoSlide ==> r == s
    ensures !(Blocked(s, videoEnded) && index != VideoSlide) ==>
      r.current == index && r.interval.Some? && r.live == {r.interval.value}
    ensures !(Blocked(s, videoEnded) && index != VideoSlide) ==> r.media == MediaAfter(s, index)
    ensures r.count == s.count && r.hasVideo == s.hasVideo
  {
    if Blocked(s, videoEnded) && index != VideoSlide then s
    else StartAutoSlide(ShowSlide(s, index))
  }

  /** The video's 'ended' event (listened for only when the video exists): advance one
      slide and re-arm autoplay. */
  function VideoEnded(s: Slider): (r: Slider)
    requires Valid(s)
    ensures Valid(r)
    ensures !s.hasVideo ==> r == s
    ensures s.hasVideo ==>
      r.current == NextIndex(s.current, s.count) && r.interval.Some? && r.live == {r.interval.value}
    ensures s.hasVideo ==> r.media == MediaAfter(s, NextIndex(s.current, s.count))
    ensures r.count == s.count && r.hasVideo == s.hasVideo
  {
    if s.hasVideo then StartAutoSlide(NextSlide(s)) else s
  }

  /** Mouse enters the slider: autoplay pauses. */
  function MouseEnter(s: Slider): (r: Slider)
    requires Valid(s)
    ensures Valid(r)
    ensures r.live == {}
    ensures r.current == s.current
    ensures r == s.(live := {})
  {
    StopAutoSlide(s)
  }

  /** Mouse leaves the slider: autoplay resumes with a single interval. */
  function MouseLeave(s: Slider): (r: Slider)
    requires Valid(s)
    ensures Valid(r)
    ensures |r.live| == 1
    ensures r.current == s.current
    ensures r == s.(interval := r.interval, live := r.live, nextHandle := r.nextHandle)
  {
    StartAutoSlide(s)
  }

  /** Initialisation: show slide 0, then start autoplay. */
  function Init(count: nat, hasVideo: bool): (s: Slider)
    requires count > 0
    ensures Valid(s)
    ensures s.current == 0
    ensures |s.live| == 1
    ensures s.count == count && s.hasVideo == hasVideo
    ensures s.media == if hasVideo then Pause else Untouched
  {
    StartAutoSlide(ShowSlide(Loaded(count, hasVideo), 0))
  }

  /** The timer invariant: no reachable state has two autoplay intervals firing. */
  lemma AtMostOneInterval(s: Slider)
    requires WellFormed(s)
    ensures |s.live| <= 1
  {
    match s.interval
    case None =>
      assert s.live == {};
    case Some(h) =>
      if h in s.live {
        assert s.live == {h};
      } else {
        assert s.live == {};
      }
  }

  /** Starting autoplay twice leaves one interval, the one armed last. */
  lemma RestartIsIdempotent(s: Slider)
    requires WellFormed(s)
    ensures var t := StartAutoSlide(StartAutoSlide(s));
      |t.live| == 1 && StartAutoSlide(s).interval.value !in t.live
  {
  }

  /** Once autoplay brings up the video slide with a video present, it stops: further
      ticks change nothing until a manual control or the 'ended' event acts. */
  lemma AutoplayHaltsOnVideo(s: Slider)
    requires Valid(s)
    requires s.hasVideo
    requires s.live != {}
    requires NextIndex(s.current, s.count) == VideoSlide
    ensures Tick(s).current == VideoSlide
    ensures Tick(s).live == {}
    ensures Tick(Tick(s)) == Tick(s)
  {
  }

  /** Four slides with the video last: three ticks after loading reach the video
      slide, which then holds. */
  lemma ThreeTicksReachVideo()
    ensures var s := Tick(Tick(Tick(Init(4, true))));
      s.current == VideoSlide && s.media == PlayFromStart && Tick(s) == s
  {
    var s0 := Init(4, true);
    var s1 := Tick(s0);
    assert s1.current == 1;
    var s2 := Tick(s1);
    assert s2.current == 2;
    AutoplayHaltsOnVideo(s2);
  }

  /** The video's end moves on to the slide after it and autoplay runs again. */
  lemma EndedResumesAutoplay(s: Slider)
    requires Valid(s)
    requires s.hasVideo && s.count == 4 && s.current == VideoSlide
    ensures VideoEnded(s).current == 0
    ensures |VideoEnded(s).live| == 1
    ensures Tick(VideoEnded(s)).current == 1
  {
  }
}
